=== FILE: README.md ===
# Board model of `Map` (marakesh)

A Dafny model of the integer core of the `Map` class of a tile-based board
game (`Assets/Scripts/Map.cs`): a `size` x `size` board of tiles stored
row-major in one flat array, the lookup of tiles by grid coordinate and by
world position, the pair of tiles outlined around a pointer position and
their recolouring, and the dice-driven movement rule that advances a token
along its facing.

The `Map` object is modelled as an immutable record
`Map(size, tiles, outlined)`; each member that mutates the object returns
the updated record. A tile is its grid position plus its colour, and the
outlined-tile collection is a sequence of indices into the tile array.

Modules:

- `Wrappers`: `Option`. In the members that follow the source as written
  (`Board.GetTile`, `Movement.NextTile`, `World.TileIndexAtAsWritten`,
  `Board.SelectedTilesAsWritten`) `None` is the IndexOutOfRangeException of a
  read outside the tile array; in the bounds-checked members (`Board.TileAt`,
  `Movement.NextTileChecked`) it is the rejection of an off-board coordinate,
  which the source does not reject when its flat index stays in the array.
- `Grid`: integer coordinates, the row-major index/coordinate layout and the
  division lemmas it needs.
- `World`: world-space points (floats modelled as reals), the tile centres
  and the clamped lookup of the tile under a world point.
- `Board`: the `Map` record, its constructor, `GetTile`, colouring and the
  outline selection.
- `Movement`: `GetDirection`, the 5 -> 3 / 6 -> 2 dice remap and
  `GetNextTile`.

Three facts about the code shape the model. An unknown
`SelectionOrientation` only reaches `Debug.Assert(false)` (Map.cs:95), so the
model yields no tiles for it. The constructor has no guard on `size`, which
is initialised to 7 and never reassigned inside Map.cs. The enum member is
spelled `Vertival` (Map.cs:90) and is modelled as `Vertical`.

## Model

| member | source | states |
|---|---|---|
| Grid.CoordOf | Assets/Scripts/Map.cs:15-19 | the constructor's coordinate `(i % size, i / size)` for every array index lies on the board |
| Grid.CoordRoundTrip | Assets/Scripts/Map.cs:65-68 | for an on-board `(x, y)` the index `x + y*size` lies in `[0, size*size)` and maps back to `(x, y)` |
| Grid.IndexRoundTrip | Assets/Scripts/Map.cs:16-18 | for every index below `size*size`, index -> coordinate -> index is the identity |
| Grid.CoordOfInjective | Assets/Scripts/Map.cs:15-19 | no two tiles of the array receive the same grid coordinate |
| Board.Build | Assets/Scripts/Map.cs:13-21 | the constructor yields `size*size` tiles, tile `i` at `(i % size, i / size)`, all with the initial colour, and an empty outline set |
| Board.LayoutIsBijection | Assets/Scripts/Map.cs:15-19 | every board coordinate is carried by exactly one tile, the one at index `x + y*size` |
| Board.GetTile | Assets/Scripts/Map.cs:65-68 | the unchecked lookup only ever returns tiles of the board (or the array fault) |
| Board.GetTileRoundTrip | Assets/Scripts/Map.cs:65-68 | for every on-board coordinate `GetTile` returns the tile standing at that coordinate |
| Board.GetTileHitsRequestedTileIff | Assets/Scripts/Map.cs:65-68 | a tile `GetTile` returns stands at the requested coordinate if and only if the coordinate is on the board |
| Board.GetTileAnyCoordinate | Assets/Scripts/Map.cs:65-68 | at any coordinate the lookup faults exactly when `x + y*size` leaves `[0, size*size)`, and otherwise returns the tile whose row-major coordinate is that index, so off-board coordinates inside the array read some other tile |
| Board.GetTileWrapsAcrossRows | Assets/Scripts/Map.cs:67 | on any board of side 2 or more, coordinate `(-1, 1)` returns tile `(size-1, 0)` |
| Board.TileAt | Assets/Scripts/Map.cs:65-68 | the bounds-checked lookup fails exactly off the board, otherwise returns the tile at the coordinate, agreeing with `GetTile` |
| Board.Recolor | Assets/Scripts/Map.cs:33-36 | recolouring a list of tiles sets exactly the listed tiles to the colour and keeps every position |
| Board.SetTilesColor | Assets/Scripts/Map.cs:31-37 | exactly the outlined tiles take the colour; every other tile, the size and the outline set are unchanged |
| Board.SetTilesColorIgnoresPosition | Assets/Scripts/Map.cs:31-37 | the result does not depend on the world position argument |
| Board.SetTileColor | Assets/Scripts/Map.cs:25-29 | over the corrected world lookup, exactly the tile whose coordinate is the cell under the world point takes the colour; nothing else changes |
| Board.SelectedTiles | Assets/Scripts/Map.cs:82-98 | over the corrected world lookup, Horizontal and Vertical yield exactly two valid tile indices, the first the cell under the point plus half a tile along the orientation's axis and the second the cell under the point minus half a tile; any other orientation yields none |
| Board.SelectedTilesAsWritten | Assets/Scripts/Map.cs:82-98 | over the source's world lookup, Horizontal and Vertical yield exactly two reads, any other orientation none, and every successful read is a valid index |
| Board.SelectionAgreesOffEdge | Assets/Scripts/Map.cs:86-93 | unless an offset point has x exactly `Tile.size*size`, the source's selection reads the same two tiles as the corrected one |
| Board.SelectionSplitsAtLastColumn | Assets/Scripts/Map.cs:86-88 | on the 7 x 7 unit board a Horizontal selection centred on tile `(6, 0)` outlines tile `(0, 1)` together with `(6, 0)`, which are not neighbours |
| Board.SelectionFaultsAtLastTile | Assets/Scripts/Map.cs:86-87 | on the same board a Horizontal selection centred on tile `(6, 6)` reads past the tile array |
| Board.SelectedPairIsAdjacent | Assets/Scripts/Map.cs:86-93 | over the corrected world lookup (the source breaks it at last-column centres, see `Board.SelectionSplitsAtLastColumn`), the pair lies on one row (Horizontal) or one column (Vertical), the first tile in the same cell as the second or the next one along the axis |
| Board.SetTilesOutLine | Assets/Scripts/Map.cs:69-80 | over the corrected world lookup, the outline set is emptied; it stays empty when not activated, otherwise holds the two selected tiles in order; tiles are untouched |
| Board.OutlineForgetsPrevious | Assets/Scripts/Map.cs:71 | the outline set after the call does not depend on the one before it |
| Board.OutlineThenColor | Assets/Scripts/Map.cs:69-93 | over the corrected world lookup, outlining then colouring recolours exactly the tiles in the cells at plus and minus half a tile from the point, and nothing when deactivated |
| World.Truncate | Assets/Scripts/Map.cs:50-51 | the `(int)` cast lands within one unit of its operand, toward zero |
| World.ClampAxis | Assets/Scripts/Map.cs:43-48 | the z clamp yields a value in `[0, Tile.size*(size-0.5)]` and leaves values already in that range unchanged |
| World.ClampXAsWritten | Assets/Scripts/Map.cs:41-46 | the source's x clamp yields a value in `[0, Tile.size*size]` and leaves values in that range unchanged |
| World.CellUnder | Assets/Scripts/Map.cs:39-51 | with the x clamp corrected to the z bound, the clamped cell of any world point is on the board (the source's own clamp can give column `size`, see `World.AsWrittenFarEdgeColumn`) |
| World.TileIndexAt | Assets/Scripts/Map.cs:39-53 | the corrected world lookup always yields a valid index whose coordinate is the clamped cell under the point |
| World.TileIndexAtAsWritten | Assets/Scripts/Map.cs:39-53 | any index the source's world lookup reads successfully lies in the array |
| World.CenterRoundTrip | Assets/Scripts/Map.cs:55-63 | the world lookup of an on-board tile's centre gives back that tile, in both the source's and the corrected lookup |
| World.AsWrittenAgreesOffEdge | Assets/Scripts/Map.cs:41-44 | the source's lookup equals the corrected one at every point whose x is not exactly `Tile.size*size` |
| World.AsWrittenFarEdgeColumn | Assets/Scripts/Map.cs:41-42 | at `x == Tile.size*size` the source's column is `size`, one past the board, where the corrected column is `size-1` |
| World.AsWrittenFarEdgeExample | Assets/Scripts/Map.cs:41-52 | on the 7 x 7 board with unit tiles `(7, 0, 0)` reads tile `(0, 1)` instead of `(6, 0)`, and `(7, 0, 6.5)` reads past the array |
| Movement.Direction | Assets/Scripts/Map.cs:129-144 | every facing maps to a unit axis step; an unnamed facing maps to up `(0, 1)` |
| Movement.FacingsAreUnitAxes | Assets/Scripts/Map.cs:129-144 | the four named facings map one-to-one onto the four unit axis steps |
| Movement.EffectiveSteps | Assets/Scripts/Map.cs:113-123 | every roll in 1..6 moves 1 to 4 steps, rolls 1-4 move as rolled |
| Movement.StepDistribution | Assets/Scripts/Map.cs:100-101 | of the six faces, one moves 1 step, two move 2, two move 3, one moves 4 |
| Movement.Destination | Assets/Scripts/Map.cs:119 | the target moves only along the facing's axis |
| Movement.DestinationDistance | Assets/Scripts/Map.cs:119 | the target lies exactly `steps` grid steps from the start |
| Movement.NextTile | Assets/Scripts/Map.cs:110-127 | rolls outside 1..6 stay on the current tile; rolls 1..6 look up the tile `EffectiveSteps(roll)` steps ahead |
| Movement.RemappedRolls | Assets/Scripts/Map.cs:120-123 | a roll of 5 resolves as 3 and a roll of 6 as 2 |
| Movement.NextTileMovesBySteps | Assets/Scripts/Map.cs:115-119 | when the target is on the board the returned tile stands at it, `EffectiveSteps(roll)` steps from the current tile |
| Movement.NextTileLeavesBoard | Assets/Scripts/Map.cs:119 | from `(0, 0)` facing left a roll of 2 targets `(-2, 0)` and the lookup faults |
| Movement.NextTileWrapsAcrossRows | Assets/Scripts/Map.cs:119 | from `(0, 1)` facing left a roll of 1 returns tile `(size-1, 0)` of the row below |
| Movement.NextTileChecked | Assets/Scripts/Map.cs:110-127 | the bounds-checked resolver fails exactly when the target leaves the board, otherwise returns the tile at the target, `EffectiveSteps(roll)` steps away |
| Movement.NextTileAgreesOnBoard | Assets/Scripts/Map.cs:110-127 | whenever the checked resolver finds a tile, the source's resolver returns the same tile |

## Left out

- The die draw `Random.Range(1, 7)` in the public `GetNextTile` overload (Map.cs:104-108) is a foreign random source; the roll is an input of `Movement.NextTile`.
- The camera placement in the constructor (Map.cs:22), `Debug.Log` (Map.cs:112) and `Debug.Assert(false)` (Map.cs:95) are engine side effects and diagnostics.
- `Tile` and `OutlinedTiles` are not part of this model: a tile is a record of its grid position and colour, the outline set a sequence of tile indices; a tile's stored world position is not kept, `World.TileCenter` computes it.
- `Tile.size` is a static of `Tile`, whose value is not visible; it is a parameter `tileSize`, required positive because the lookup divides by it.
- The board side is a parameter of `Board.Build`; the source's `size` field is initialised to 7 and never reassigned inside Map.cs.
- `size` and `tiles` (Map.cs:8-9) are public mutable fields that any caller may reassign; the model assumes no caller does, and `Board.Valid` requires `|tiles| == size*size`. After `size = 8` on the 7 x 7 board, `GetTile((0, 6))` would read index 48, tile `(6, 6)`, a case the model does not cover.
- Single-precision float rounding is not modelled: world coordinates are exact reals.
- Board.GetTile: computes `x + y*size` on unbounded integers, while C# `int` arithmetic wraps at 32 bits; on the 7-wide board `(0, 613566757)` gives `613566757*7 = 2^32 + 3`, which the source reads as index 3, tile `(3, 0)`, where the model returns `None`.
- Movement.NextTile: `position + direction * d6` (Map.cs:119) is likewise unbounded, so a current position within 4 of the `int` limits does not wrap as in the source.
- The world lookups' `z * size + x` (Map.cs:52) cannot overflow: both cells are clamped into `[0, size]`.
- `GetSelectedTiles` is a lazy iterator; the model computes its two tiles eagerly.
- Board.SelectedTilesAsWritten: its contract gives only the shape of the result, two reads whose successes are valid indices; which reads it makes is stated by `Board.SelectionAgreesOffEdge` (the corrected pair away from the far x edge) and by `Board.SelectionSplitsAtLastColumn` and `Board.SelectionFaultsAtLastTile` (the far-edge cases).
- Board.SetTilesOutLine: outlines the pair from the corrected world lookup `World.TileIndexAt` (`Board.SelectedTiles`), so it does not reproduce the source's far-edge misread, which an ordinary tile centre sets off: a Horizontal selection centred on any last-column tile puts its "+" point at `x == Tile.size*size`. The source's pair is `Board.SelectedTilesAsWritten`, and `Board.SelectionSplitsAtLastColumn` and `Board.SelectionFaultsAtLastTile` show the misread.
- Board.SetTileColor: also uses the corrected lookup, so at `x == Tile.size*size` it colours tile `(size-1, row)` where the source colours `(0, row+1)` or faults on the last row.
- Board.GetTile: its contract states only that a returned tile belongs to the board; what it returns for each coordinate, on the board or off it, is stated by `Board.GetTileAnyCoordinate`, and on the board and at `(-1, 1)` by `Board.GetTileRoundTrip`, `Board.GetTileHitsRequestedTileIff` and `Board.GetTileWrapsAcrossRows`.
- The colour parameter of `SetTilesOutLine` is accepted and never read, as in the source.

## Findings

| source | as written | input that shows it | evidently intended | confidence | as-written member | corrected member |
|---|---|---|---|---|---|---|
| Assets/Scripts/Map.cs:67 | `GetTile` reads `tiles[x + y*size]` with no bounds check, and `GetNextTile` passes it unclamped targets (Map.cs:119) | board side 7, coordinate `(-1, 1)`, reached from tile `(0, 1)` facing left with a roll of 1, returns tile `(6, 0)` of the row below | a target off the board is rejected rather than answered with a tile from another row | medium, not executed | Board.GetTileWrapsAcrossRows | Board.TileAt |
| Assets/Scripts/Map.cs:41-42 | the x clamp tests `worldPos.x > Tile.size * size` while the z clamp (Map.cs:43) tests `Tile.size * (size - 0.5)` | board side 7, `Tile.size` 1, world point `(7, 0, 0)` is looked up as tile `(0, 1)`; `(7, 0, 6.5)` reads index 49, past the array. A Horizontal selection centred on the last-column tile `(6, 0)`, `w = (6.5, 0, 0.5)`, therefore outlines `(0, 1)` with `(6, 0)` (`Board.SelectionSplitsAtLastColumn`), and centred on `(6, 6)` it faults (`Board.SelectionFaultsAtLastTile`) | x is clamped with the same bound as z, so every point maps to an on-board tile | high, not executed | World.AsWrittenFarEdgeExample | World.TileIndexAt |

=== FILE: board.dfy ===
/** The Map object: a size x size board of tiles stored row-major, plus the
    set of currently outlined tiles (Map.cs). Map is modelled as an immutable
    record; every mutating member returns the updated record. */
module Board {
  import opened Wrappers
  import opened Grid
  import opened World

  /** UnityEngine.Color. The model never inspects a colour's channels. */
  datatype Color = Color(r: real, g: real, b: real, a: real)

  /** A tile: its grid coordinate, fixed at construction, and its colour. */
  datatype Tile = Tile(position: Vec2, color: Color)

  /** SelectionOrientation. `Unnamed` is any other value of the enum's
      underlying integer. */
  datatype SelectionOrientation = Horizontal | Vertical | Unnamed(value: int)

  /** Map: the board side, the row-major tile array, and the outlined tiles
      (OutlinedTiles) as indices into the array, in insertion order. */
  datatype Map = Map(size: nat, tiles: seq<Tile>, outlined: seq<nat>)

  /** The layout the constructor establishes and no member changes: size*size
      tiles, tile i at coordinate (i % size, i / size), outlined indices in
      range. */
  predicate Valid(m: Map) {
    && |m.tiles| == m.size * m.size
    && (forall i | 0 <= i < |m.tiles| :: m.tiles[i].position == CoordOf(i, m.size))
    && (forall k | k in m.outlined :: k < |m.tiles|)
  }

  /** The Map constructor: one tile per flat index i, at coordinate
      (i % size, i / size), all with the colour the Tile constructor gives,
      and an empty outline set. The source's `size` field is initialised to 7
      and never reassigned inside Map.cs. */
  method Build(size: nat, blank: Color) returns (m: Map)
    ensures Valid(m)
    ensures m.size == size && |m.tiles| == size * size
    ensures forall i | 0 <= i < |m.tiles| :: m.tiles[i].color == blank
    ensures m.outlined == []
  {
    var tiles: seq<Tile> := [];
    var i := 0;
    while i < size * size
      invariant i <= size * size
      invariant |tiles| == i
      invariant forall j | 0 <= j < i :: tiles[j] == Tile(CoordOf(j, size), blank)
    {
      tiles := tiles + [Tile(CoordOf(i, size), blank)];
      i := i + 1;
    }
    m := Map(size, tiles, []);
  }

  /** Every board coordinate is carried by exactly one tile, at the index
      `x + y*size` that GetTile reads. */
  lemma LayoutIsBijection(m: Map, p: Vec2)
    requires Valid(m) && OnBoard(p, m.size)
    ensures 0 <= IndexOf(p, m.size) < |m.tiles|
    ensures m.tiles[IndexOf(p, m.size)].position == p
    ensures forall i | 0 <= i < |m.tiles| && m.tiles[i].position == p :: i == IndexOf(p, m.size)
  {
    CoordRoundTrip(p, m.size);
    forall i | 0 <= i < |m.tiles| && m.tiles[i].position == p
      ensures i == IndexOf(p, m.size)
    {
      IndexRoundTrip(i, m.size);
    }
  }

  // ---------------------------------------------------------------------------
  // Lookup by grid coordinate
  // ---------------------------------------------------------------------------

  /** Map.GetTile as written: reads `tiles[x + y*size]` with no bounds check.
      `None` is the IndexOutOfRangeException the array raises when the flat
      index leaves the array; a coordinate off the board whose flat index
      stays inside the array returns some other tile. */
  function GetTile(m: Map, p: Vec2): (r: Option<Tile>)
    ensures r.Some? ==> r.value in m.tiles
  {
    var i := IndexOf(p, m.size);
    if 0 <= i < |m.tiles| then Some(m.tiles[i]) else None
  }

  /** GetTile finds the tile standing at p for every on-board p. */
  lemma GetTileRoundTrip(m: Map, p: Vec2)
    requires Valid(m) && OnBoard(p, m.size)
    ensures GetTile(m, p).Some? && GetTile(m, p).value.position == p
  {
    LayoutIsBijection(m, p);
  }

  /** A tile GetTile returns stands at the requested coordinate exactly when
      that coordinate is on the board: off the board it is a different tile. */
  lemma GetTileHitsRequestedTileIff(m: Map, p: Vec2)
    requires Valid(m) && GetTile(m, p).Some?
    ensures GetTile(m, p).value.position == p <==> OnBoard(p, m.size)
  {
    var i := IndexOf(p, m.size);
    assert GetTile(m, p).value == m.tiles[i];
    if OnBoard(p, m.size) {
      LayoutIsBijection(m, p);
    }
  }

  /** GetTile at any coordinate, on the board or not: it faults exactly when
      the flat index `x + y*size` leaves the array, and otherwise returns the
      tile whose coordinate is that index's row-major coordinate. */
  lemma GetTileAnyCoordinate(m: Map, p: Vec2)
    requires Valid(m)
    ensures GetTile(m, p).None? <==> !(0 <= IndexOf(p, m.size) < m.size * m.size)
    ensures GetTile(m, p).Some? ==> GetTile(m, p).value.position == CoordOf(IndexOf(p, m.size), m.size)
  {
  }

  /** Concrete wrap-around: one column left of the second row's first tile,
      GetTile returns the last tile of the first row. */
  lemma GetTileWrapsAcrossRows(m: Map)
    requires Valid(m) && 2 <= m.size
    ensures GetTile(m, Vec2(-1, 1)) == Some(m.tiles[m.size - 1])
    ensures m.tiles[m.size - 1].position == Vec2(m.size - 1, 0)
  {
    LayoutIsBijection(m, Vec2(m.size - 1, 0));
  }

  /** GetTile with the bounds check the source lacks: `None` exactly for
      coordinates off the board, otherwise the tile standing at p. */
  function TileAt(m: Map, p: Vec2): (r: Option<Tile>)
    requires Valid(m)
    ensures r.Some? <==> OnBoard(p, m.size)
    ensures r.Some? ==> r.value.position == p && r.value in m.tiles
    ensures r.Some? ==> GetTile(m, p) == r
  {
    if OnBoard(p, m.size) then
      LayoutIsBijection(m, p);
      Some(m.tiles[IndexOf(p, m.size)])
    else
      None
  }

  // ---------------------------------------------------------------------------
  // Colouring
  // ---------------------------------------------------------------------------

  /** Sets the colour of the tiles at the given indices, one after another
      (the foreach over OutlinedTiles calling Tile.SetColor). */
  function Recolor(tiles: seq<Tile>, idxs: seq<nat>, c: Color): (r: seq<Tile>)
    requires forall k | k in idxs :: k < |tiles|
    ensures |r| == |tiles|
    ensures forall i | 0 <= i < |r| :: r[i].position == tiles[i].position
    ensures forall i | 0 <= i < |r| :: r[i].color == if i in idxs then c else tiles[i].color
    decreases |idxs|
  {
    if idxs == [] then tiles
    else
      var k := idxs[0];
      assert k in idxs;
      assert forall j | j in idxs[1..] :: j in idxs;
      Recolor(tiles[k := tiles[k].(color := c)], idxs[1..], c)
  }

  /** Map.SetTilesColor: recolours every outlined tile and no other. The
      world position argument is accepted and never read. */
  function SetTilesColor(m: Map, w: Vec3, c: Color): (r: Map)
    requires Valid(m)
    ensures Valid(r)
    ensures r.size == m.size && r.outlined == m.outlined && |r.tiles| == |m.tiles|
    ensures forall i | 0 <= i < |r.tiles| ::
      r.tiles[i] == if i in m.outlined then m.tiles[i].(color := c) else m.tiles[i]
  {
    m.(tiles := Recolor(m.tiles, m.outlined, c))
  }

  /** SetTilesColor's result does not depend on its world position argument. */
  lemma SetTilesColorIgnoresPosition(m: Map, w1: Vec3, w2: Vec3, c: Color)
    requires Valid(m)
    ensures SetTilesColor(m, w1, c) == SetTilesColor(m, w2, c)
  {
  }

  /** Map.SetTileColor: recolours the one tile standing in the cell under the
      world point; every other tile and the outline set are unchanged. */
  function SetTileColor(m: Map, tileSize: nat, w: Vec3, c: Color): (r: Map)
    requires Valid(m) && 0 < m.size && 0 < tileSize
    ensures Valid(r)
    ensures r.size == m.size && r.outlined == m.outlined && |r.tiles| == |m.tiles|
    ensures forall i | 0 <= i < |r.tiles| ::
      r.tiles[i] == if m.tiles[i].position == CellUnder(m.size, tileSize, w)
                    then m.tiles[i].(color := c) else m.tiles[i]
  {
    var k := TileIndexAt(m.size, tileSize, w);
    var r := m.(tiles := m.tiles[k := m.tiles[k].(color := c)]);
    assert forall i | 0 <= i < |r.tiles| ::
      (m.tiles[i].position == CellUnder(m.size, tileSize, w) <==> i == k) by {
      forall i | 0 <= i < |r.tiles|
        ensures m.tiles[i].position == CellUnder(m.size, tileSize, w) <==> i == k
      {
        if m.tiles[i].position == CellUnder(m.size, tileSize, w) {
          CoordOfInjective(i, k, m.size);
        }
      }
    }
    r
  }

  // ---------------------------------------------------------------------------
  // Outline selection
  // ---------------------------------------------------------------------------

  /** Half a tile along world x (`Vector3.right * Tile.size / 2`). */
  function HalfRight(tileSize: nat): Vec3 {
    Vec3(tileSize as real / 2.0, 0.0, 0.0)
  }

  /** Half a tile along world z (`Vector3.forward * Tile.size / 2`). */
  function HalfForward(tileSize: nat): Vec3 {
    Vec3(0.0, 0.0, tileSize as real / 2.0)
  }

  /** Map.GetSelectedTiles: for Horizontal the tile half a tile to the +x side
      of the point, then the one half a tile to the -x side; for Vertical the
      same along z; for any other value no tile (the source's Debug.Assert is
      a diagnostic only). */
  function SelectedTiles(size: nat, tileSize: nat, w: Vec3, o: SelectionOrientation): (r: seq<nat>)
    requires 0 < size && 0 < tileSize
    ensures |r| == if o.Unnamed? then 0 else 2
    ensures forall k | k in r :: k < size * size
    ensures !o.Unnamed? ==>
      var off := if o.Horizontal? then HalfRight(tileSize) else HalfForward(tileSize);
      && r[0] < size * size && r[1] < size * size
      && CoordOf(r[0], size) == CellUnder(size, tileSize, Plus(w, off))
      && CoordOf(r[1], size) == CellUnder(size, tileSize, Minus(w, off))
  {
    match o
    case Horizontal =>
      [TileIndexAt(size, tileSize, Plus(w, HalfRight(tileSize))),
       TileIndexAt(size, tileSize, Minus(w, HalfRight(tileSize)))]
    case Vertical =>
      [TileIndexAt(size, tileSize, Plus(w, HalfForward(tileSize))),
       TileIndexAt(size, tileSize, Minus(w, HalfForward(tileSize)))]
    case Unnamed(_) => []
  }

  /** The selected pair is two neighbouring tiles along the orientation's axis,
      the first on the + side (or one tile twice where the clamp pins both
      points into the edge cell). */
  lemma SelectedPairIsAdjacent(size: nat, tileSize: nat, w: Vec3, o: SelectionOrientation)
    requires 0 < size && 0 < tileSize && !o.Unnamed?
    ensures var r := SelectedTiles(size, tileSize, w, o);
      var a, b := CoordOf(r[0], size), CoordOf(r[1], size);
      && (o.Horizontal? ==> a.y == b.y && b.x <= a.x <= b.x + 1)
      && (o.Vertical? ==> a.x == b.x && b.y <= a.y <= b.y + 1)
  {
    var half := tileSize as real / 2.0;
    if o.Horizontal? {
      CellsOneTileApart(size, tileSize, w.x - half, w.x + half);
    } else {
      CellsOneTileApart(size, tileSize, w.z - half, w.z + half);
    }
  }

  /** Two coordinates one tile apart are clamped into the same or adjacent
      cells, in order. */
  lemma CellsOneTileApart(size: nat, tileSize: nat, lo: real, hi: real)
    requires 0 < size && 0 < tileSize
    requires hi - lo == tileSize as real
    ensures var cl := Cell(ClampAxis(lo, size, tileSize), tileSize);
      var ch := Cell(ClampAxis(hi, size, tileSize), tileSize);
      cl <= ch <= cl + 1
  {
    ClampSpread(lo, hi, size, tileSize);
    CellStep(ClampAxis(lo, size, tileSize), ClampAxis(hi, size, tileSize), tileSize);
  }

  /** Map.GetSelectedTiles over the source's own world lookup
      (TileIndexAtAsWritten): each entry is the index read, or `None` where
      the read runs past the tile array. */
  function SelectedTilesAsWritten(size: nat, tileSize: nat, w: Vec3, o: SelectionOrientation): (r: seq<Option<nat>>)
    requires 0 < size && 0 < tileSize
    ensures |r| == if o.Unnamed? then 0 else 2
    ensures forall k | k in r && k.Some? :: k.value < size * size
  {
    match o
    case Horizontal =>
      [TileIndexAtAsWritten(size, tileSize, Plus(w, HalfRight(tileSize))),
       TileIndexAtAsWritten(size, tileSize, Minus(w, HalfRight(tileSize)))]
    case Vertical =>
      [TileIndexAtAsWritten(size, tileSize, Plus(w, HalfForward(tileSize))),
       TileIndexAtAsWritten(size, tileSize, Minus(w, HalfForward(tileSize)))]
    case Unnamed(_) => []
  }

  /** Unless one of the two offset points has its x exactly on the far edge
      `Tile.size * size`, the source's selection reads the same tiles as the
      corrected one. */
  lemma SelectionAgreesOffEdge(size: nat, tileSize: nat, w: Vec3, o: SelectionOrientation)
    requires 0 < size && 0 < tileSize
    requires o.Horizontal? ==> w.x + tileSize as real / 2.0 != (tileSize * size) as real
    requires o.Horizontal? ==> w.x - tileSize as real / 2.0 != (tileSize * size) as real
    requires o.Vertical? ==> w.x != (tileSize * size) as real
    ensures var r, r' := SelectedTilesAsWritten(size, tileSize, w, o), SelectedTiles(size, tileSize, w, o);
      |r| == |r'| && forall i | 0 <= i < |r| :: r[i] == Some(r'[i])
  {
    if o.Horizontal? {
      AsWrittenAgreesOffEdge(size, tileSize, Plus(w, HalfRight(tileSize)));
      AsWrittenAgreesOffEdge(size, tileSize, Minus(w, HalfRight(tileSize)));
    } else if o.Vertical? {
      AsWrittenAgreesOffEdge(size, tileSize, Plus(w, HalfForward(tileSize)));
      AsWrittenAgreesOffEdge(size, tileSize, Minus(w, HalfForward(tileSize)));
    }
  }

  /** A Horizontal selection centred on the last-column tile (6, 0) of the
      7 x 7 board with unit tiles: its "+" point lies on the far edge, so the
      source outlines tile (0, 1) together with (6, 0), which are not
      neighbours. */
  lemma SelectionSplitsAtLastColumn(w: Vec3)
    requires w.x == 6.5 && w.z == 0.5
    ensures SelectedTilesAsWritten(7, 1, w, Horizontal) == [Some(7), Some(6)]
    ensures CoordOf(7, 7) == Vec2(0, 1) && CoordOf(6, 7) == Vec2(6, 0)
  {
    var plus, minus := Plus(w, HalfRight(1)), Minus(w, HalfRight(1));
    HorizontalReads(7, 1, w, plus, minus);
    FarEdgeFirstRow(plus);
    LastColumnFirstRow(minus);
    FirstRowEnds();
  }

  /** Centred on the last tile (6, 6) of the same board, the source's
      selection reads past the tile array. */
  lemma SelectionFaultsAtLastTile(w: Vec3)
    requires w.x == 6.5 && w.z == 6.5
    ensures SelectedTilesAsWritten(7, 1, w, Horizontal)[0] == None
  {
    var plus, minus := Plus(w, HalfRight(1)), Minus(w, HalfRight(1));
    HorizontalReads(7, 1, w, plus, minus);
    AsWrittenFarEdgeColumn(7, 1, plus);
    CellInBand(plus.z, 1, 6);
  }

  /** The Horizontal selection reads the two given offset points. */
  lemma HorizontalReads(size: nat, tileSize: nat, w: Vec3, plus: Vec3, minus: Vec3)
    requires 0 < size && 0 < tileSize
    requires plus == Plus(w, HalfRight(tileSize)) && minus == Minus(w, HalfRight(tileSize))
    ensures SelectedTilesAsWritten(size, tileSize, w, Horizontal)
         == [TileIndexAtAsWritten(size, tileSize, plus), TileIndexAtAsWritten(size, tileSize, minus)]
  {
  }

  /** Solver step for SelectionSplitsAtLastColumn: the coordinates of indices 7 and 6. */
  lemma FirstRowEnds()
    ensures CoordOf(7, 7) == Vec2(0, 1) && CoordOf(6, 7) == Vec2(6, 0)
  {
    DivModOf(1, 0, 7);
    CoordRoundTrip(Vec2(6, 0), 7);
  }

  /** Solver step for SelectionSplitsAtLastColumn: the read of its "+" point. */
  lemma FarEdgeFirstRow(a: Vec3)
    requires a.x == 7.0 && a.z == 0.5
    ensures TileIndexAtAsWritten(7, 1, a) == Some(7)
  {
    AsWrittenFarEdgeColumn(7, 1, a);
    CellInBand(a.z, 1, 0);
  }

  /** Solver step for SelectionSplitsAtLastColumn: the read of its "-" point. */
  lemma LastColumnFirstRow(b: Vec3)
    requires b.x == 6.0 && b.z == 0.5
    ensures TileIndexAtAsWritten(7, 1, b) == Some(6)
  {
    CellInBand(b.x, 1, 6);
    CellInBand(b.z, 1, 0);
  }

  /** Map.SetTilesOutLine: clears the outline set, then, only when `activate`
      holds, adds the selected tiles in order. The colour argument is not
      read; the tiles themselves are not touched. */
  function SetTilesOutLine(m: Map, tileSize: nat, w: Vec3, c: Color, o: SelectionOrientation, activate: bool): (r: Map)
    requires Valid(m) && 0 < m.size && 0 < tileSize
    ensures Valid(r)
    ensures r.size == m.size && r.tiles == m.tiles
    ensures !activate ==> r.outlined == []
    ensures activate && !o.Unnamed? ==> |r.outlined| == 2
    ensures activate ==> r.outlined == SelectedTiles(m.size, tileSize, w, o)
  {
    m.(outlined := if activate then SelectedTiles(m.size, tileSize, w, o) else [])
  }

  /** The outline set before the call has no influence on the one after it. */
  lemma OutlineForgetsPrevious(m1: Map, m2: Map, tileSize: nat, w: Vec3, c: Color, o: SelectionOrientation, activate: bool)
    requires Valid(m1) && Valid(m2) && 0 < m1.size && 0 < tileSize
    requires m1.size == m2.size
    ensures SetTilesOutLine(m1, tileSize, w, c, o, activate).outlined
         == SetTilesOutLine(m2, tileSize, w, c, o, activate).outlined
  {
  }

  /** Outlining and then colouring the outlined tiles recolours exactly the
      tiles standing in the cells under the two half-tile offset points, and
      nothing at all when the outline was deactivated. */
  lemma OutlineThenColor(m: Map, tileSize: nat, w: Vec3, c: Color, o: SelectionOrientation, activate: bool, w': Vec3, c': Color)
    requires Valid(m) && 0 < m.size && 0 < tileSize && !o.Unnamed?
    ensures var r := SetTilesColor(SetTilesOutLine(m, tileSize, w, c, o, activate), w', c');
      var off := if o.Horizontal? then HalfRight(tileSize) else HalfForward(tileSize);
      var hit := {CellUnder(m.size, tileSize, Plus(w, off)), CellUnder(m.size, tileSize, Minus(w, off))};
      && |r.tiles| == |m.tiles|
      && forall i | 0 <= i < |m.tiles| ::
           r.tiles[i] == if activate && m.tiles[i].position in hit then m.tiles[i].(color := c') else m.tiles[i]
  {
    var off := if o.Horizontal? then HalfRight(tileSize) else HalfForward(tileSize);
    var ka := TileIndexAt(m.size, tileSize, Plus(w, off));
    var kb := TileIndexAt(m.size, tileSize, Minus(w, off));
    var hit := {CellUnder(m.size, tileSize, Plus(w, off)), CellUnder(m.size, tileSize, Minus(w, off))};
    var s := SetTilesOutLine(m, tileSize, w, c, o, activate);
    assert activate ==> s.outlined == [ka, kb];
    forall i | 0 <= i < |m.tiles|
      ensures (i in s.outlined) == (activate && m.tiles[i].position in hit)
    {
      if activate && m.tiles[i].position in hit {
        if m.tiles[i].position == CoordOf(ka, m.size) {
          CoordOfInjective(i, ka, m.size);
        } else {
          CoordOfInjective(i, kb, m.size);
        }
      }
    }
  }
}

=== FILE: grid.dfy ===
/** Row-major layout of a size x size board: flat tile index <-> grid coordinate
    (Map.cs constructor and Map.GetTile). */
module Grid {

  /** Vector2Int: an integer grid coordinate or offset. */
  datatype Vec2 = Vec2(x: int, y: int)

  function Add(a: Vec2, b: Vec2): Vec2 {
    Vec2(a.x + b.x, a.y + b.y)
  }

  /** Vector2Int * int: component-wise scaling. */
  function Scale(v: Vec2, k: int): Vec2 {
    Vec2(v.x * k, v.y * k)
  }

  function Abs(n: int): nat {
    if n < 0 then -n else n
  }

  /** Number of unit grid steps between two coordinates. */
  function Manhattan(a: Vec2, b: Vec2): nat {
    Abs(b.x - a.x) + Abs(b.y - a.y)
  }

  /** Both components lie in [0, size). */
  predicate OnBoard(p: Vec2, size: nat) {
    0 <= p.x < size && 0 <= p.y < size
  }

  // ---------------------------------------------------------------------------
  // Integer helpers. Dafny's `/` and `%` are Euclidean; every use below has a
  // non-negative dividend and a positive divisor, where they agree with C#.
  // ---------------------------------------------------------------------------

  lemma MulLeftMono(k: int, a: int, b: int)
    requires 0 <= k && a <= b
    ensures k * a <= k * b
  {
    var d := b - a;
    assert k * b == k * a + k * d;
  }

  /** Division by b is exact on q*b + r for a remainder 0 <= r < b. */
  lemma DivModOf(q: int, r: int, b: int)
    requires 0 < b && 0 <= r < b
    ensures (q * b + r) / b == q
    ensures (q * b + r) % b == r
  {
    var a := q * b + r;
    var q' := a / b;
    var r' := a % b;
    assert a == b * q' + r';
    assert b * (q - q') == r' - r;
    if q - q' >= 1 {
      MulLeftMono(b, 1, q - q');
      assert false;
    } else if q - q' <= -1 {
      MulLeftMono(b, q - q', -1);
      assert false;
    }
  }

  /** A dividend in [b*k, b*(k+1)) has quotient k. */
  lemma DivInBand(a: int, b: int, k: int)
    requires 0 < b && b * k <= a < b * k + b
    ensures a / b == k
  {
    DivModOf(k, a - b * k, b);
    assert k * b + (a - b * k) == a;
  }

  /** A dividend below b*k has quotient below k. */
  lemma DivBelow(a: int, b: int, k: int)
    requires 0 < b && 0 <= a < b * k
    ensures a / b < k
  {
    var q := a / b;
    assert a == b * q + a % b;
    if q >= k {
      MulLeftMono(b, k, q);
      assert false;
    }
  }

  /** Quotients of dividends at most b apart differ by at most one. */
  lemma DivStep(lo: int, hi: int, b: int)
    requires 0 < b && 0 <= lo <= hi <= lo + b
    ensures lo / b <= hi / b <= lo / b + 1
  {
    var ql, qh := lo / b, hi / b;
    assert lo == b * ql + lo % b;
    assert hi == b * qh + hi % b;
    if qh < ql {
      MulLeftMono(b, qh + 1, ql);
      assert false;
    }
    if qh > ql + 1 {
      MulLeftMono(b, ql + 2, qh);
      assert false;
    }
  }

  // ---------------------------------------------------------------------------
  // Layout
  // ---------------------------------------------------------------------------

  /** Flat array index of grid coordinate p: `x + y*size` (Map.GetTile). */
  function IndexOf(p: Vec2, size: nat): int {
    p.x + p.y * size
  }

  /** Grid coordinate the constructor gives tile i: `(i % size, i / size)`. */
  function CoordOf(i: nat, size: nat): (p: Vec2)
    requires i < size * size
    ensures OnBoard(p, size)
  {
    DivBelow(i, size, size);
    Vec2(i % size, i / size)
  }

  /** Coordinate -> index -> coordinate is the identity on the board, and the
      index lies inside the size*size array. */
  lemma CoordRoundTrip(p: Vec2, size: nat)
    requires OnBoard(p, size)
    ensures 0 <= IndexOf(p, size) < size * size
    ensures CoordOf(IndexOf(p, size), size) == p
  {
    MulLeftMono(size, p.y, size - 1);
    assert p.y * size <= size * size - size;
    DivModOf(p.y, p.x, size);
  }

  /** Index -> coordinate -> index is the identity on [0, size*size). */
  lemma IndexRoundTrip(i: nat, size: nat)
    requires i < size * size
    ensures IndexOf(CoordOf(i, size), size) == i
  {
    var p := CoordOf(i, size);
    assert i == size * (i / size) + i % size;
  }

  /** Distinct indices carry distinct coordinates, so the layout is a bijection
      between [0, size*size) and the board. */
  lemma CoordOfInjective(i: nat, j: nat, size: nat)
    requires i < size * size && j < size * size
    requires CoordOf(i, size) == CoordOf(j, size)
    ensures i == j
  {
    IndexRoundTrip(i, size);
    IndexRoundTrip(j, size);
  }
}

=== FILE: movement.dfy ===
/** Dice-driven movement (Map.GetNextTile, Map.GetDirection). The die roll is
    an input: the public overload's Random.Range(1, 7) draw is not modelled. */
module Movement {
  import opened Wrappers
  import opened Grid
  import opened Board

  /** LookingSide. `Unnamed` is any other value of the enum's underlying int. */
  datatype LookingSide = Up | Right | Down | Left | Unnamed(value: int)

  /** A single step along one grid axis. */
  predicate IsUnitAxis(d: Vec2) {
    Abs(d.x) + Abs(d.y) == 1
  }

  /** Map.GetDirection: the grid step a facing moves along; y grows "up".
      Any unnamed value falls back to the up vector. */
  function Direction(side: LookingSide): (d: Vec2)
    ensures IsUnitAxis(d)
    ensures side.Unnamed? ==> d == Vec2(0, 1)
  {
    match side
    case Up => Vec2(0, 1)
    case Right => Vec2(1, 0)
    case Down => Vec2(0, -1)
    case Left => Vec2(-1, 0)
    case Unnamed(_) => Vec2(0, 1)
  }

  /** The four named facings are exactly the four unit axis steps: every unit
      step is some facing's direction, and no two facings share one. */
  lemma FacingsAreUnitAxes(d: Vec2)
    ensures IsUnitAxis(d) <==> exists s: LookingSide :: !s.Unnamed? && Direction(s) == d
    ensures forall a: LookingSide, b: LookingSide | !a.Unnamed? && !b.Unnamed? && Direction(a) == Direction(b) :: a == b
  {
    if IsUnitAxis(d) {
      if d == Vec2(0, 1) {
        assert Direction(Up) == d;
      } else if d == Vec2(1, 0) {
        assert Direction(Right) == d;
      } else if d == Vec2(0, -1) {
        assert Direction(Down) == d;
      } else {
        assert d == Vec2(-1, 0);
        assert Direction(Left) == d;
      }
    }
  }

  /** The number of steps a die roll in 1..6 moves: 1-4 as rolled, 5 counts
      as 3 and 6 as 2 (the doc comment of Map.GetNextTile). */
  function EffectiveSteps(d6: int): (n: int)
    requires 1 <= d6 <= 6
    ensures 1 <= n <= 4
    ensures d6 <= 4 ==> n == d6
  {
    if d6 == 5 then 3 else if d6 == 6 then 2 else d6
  }

  /** Over the six faces one roll gives 1 step, two give 2, two give 3 and one
      gives 4. */
  lemma StepDistribution()
    ensures (set d6 | 1 <= d6 <= 6 && EffectiveSteps(d6) == 1) == {1}
    ensures (set d6 | 1 <= d6 <= 6 && EffectiveSteps(d6) == 2) == {2, 6}
    ensures (set d6 | 1 <= d6 <= 6 && EffectiveSteps(d6) == 3) == {3, 5}
    ensures (set d6 | 1 <= d6 <= 6 && EffectiveSteps(d6) == 4) == {4}
  {
    var s2 := set d6 | 1 <= d6 <= 6 && EffectiveSteps(d6) == 2;
    assert 2 in s2 && 6 in s2;
    var s3 := set d6 | 1 <= d6 <= 6 && EffectiveSteps(d6) == 3;
    assert 3 in s3 && 5 in s3;
    var s1 := set d6 | 1 <= d6 <= 6 && EffectiveSteps(d6) == 1;
    assert 1 in s1;
    var s4 := set d6 | 1 <= d6 <= 6 && EffectiveSteps(d6) == 4;
    assert 4 in s4;
  }

  /** `position + GetDirection(side) * steps`: the unclamped target, exactly
      `steps` grid steps away along the facing's axis and nowhere else. */
  function Destination(pos: Vec2, side: LookingSide, steps: int): (q: Vec2)
    ensures Direction(side).x == 0 ==> q.x == pos.x
    ensures Direction(side).y == 0 ==> q.y == pos.y
  {
    Add(pos, Scale(Direction(side), steps))
  }

  /** The target lies exactly |steps| grid steps from the start. */
  lemma DestinationDistance(pos: Vec2, side: LookingSide, steps: int)
    ensures Manhattan(pos, Destination(pos, side, steps)) == Abs(steps)
  {
    var d := Direction(side);
    if d.x == 0 {
      assert Abs(d.y) == 1;
    } else {
      assert d.y == 0 && Abs(d.x) == 1;
    }
  }

  /** Map.GetNextTile(Tile, int, LookingSide) as written: rolls 1-4 look up
      the tile that many steps ahead with the unchecked GetTile, 5 and 6
      re-enter with 3 and 2, any other value stays on the current tile. */
  function NextTile(m: Map, current: Tile, d6: int, side: LookingSide): (r: Option<Tile>)
    ensures !(1 <= d6 <= 6) ==> r == Some(current)
    ensures 1 <= d6 <= 6 ==> r == GetTile(m, Destination(current.position, side, EffectiveSteps(d6)))
    decreases if d6 == 5 || d6 == 6 then 1 else 0
  {
    if 1 <= d6 <= 4 then GetTile(m, Destination(current.position, side, d6))
    else if d6 == 5 then NextTile(m, current, 3, side)
    else if d6 == 6 then NextTile(m, current, 2, side)
    else Some(current)
  }

  /** A roll of 5 moves like a roll of 3, and a roll of 6 like a roll of 2. */
  lemma RemappedRolls(m: Map, current: Tile, side: LookingSide)
    ensures NextTile(m, current, 5, side) == NextTile(m, current, 3, side)
    ensures NextTile(m, current, 6, side) == NextTile(m, current, 2, side)
  {
  }

  /** When the target is on the board, the tile NextTile returns stands at the
      target, exactly EffectiveSteps(d6) grid steps from the current tile. */
  lemma NextTileMovesBySteps(m: Map, current: Tile, d6: int, side: LookingSide)
    requires Valid(m) && 1 <= d6 <= 6
    requires OnBoard(Destination(current.position, side, EffectiveSteps(d6)), m.size)
    ensures NextTile(m, current, d6, side).Some?
    ensures NextTile(m, current, d6, side).value.position == Destination(current.position, side, EffectiveSteps(d6))
    ensures Manhattan(current.position, NextTile(m, current, d6, side).value.position) == EffectiveSteps(d6)
  {
    GetTileRoundTrip(m, Destination(current.position, side, EffectiveSteps(d6)));
    DestinationDistance(current.position, side, EffectiveSteps(d6));
  }

  /** From the corner (0, 0) facing left a roll of 2 targets (-2, 0); its flat
      index -2 is outside the array, so the source faults. */
  lemma NextTileLeavesBoard(m: Map, current: Tile)
    requires current.position == Vec2(0, 0)
    ensures Destination(current.position, Left, EffectiveSteps(2)) == Vec2(-2, 0)
    ensures NextTile(m, current, 2, Left) == None
  {
    TwoLeftOfOrigin(current.position);
    LeftOfFirstRowFaults(m, Destination(current.position, Left, 2));
  }

  /** Solver step for NextTileLeavesBoard: the target two tiles left of the origin. */
  lemma TwoLeftOfOrigin(pos: Vec2)
    requires pos == Vec2(0, 0)
    ensures Destination(pos, Left, 2) == Vec2(-2, 0)
  {
  }

  /** Solver step for NextTileLeavesBoard: the lookup of that target faults. */
  lemma LeftOfFirstRowFaults(m: Map, q: Vec2)
    requires q == Vec2(-2, 0)
    ensures GetTile(m, q) == None
  {
    assert IndexOf(q, m.size) == -2;
  }

  /** From the first tile of the second row facing left a roll of 1 targets
      (-1, 1), and the source returns the last tile of the first row. */
  lemma NextTileWrapsAcrossRows(m: Map, current: Tile)
    requires Valid(m) && 2 <= m.size && current.position == Vec2(0, 1)
    ensures NextTile(m, current, 1, Left) == Some(m.tiles[m.size - 1])
    ensures m.tiles[m.size - 1].position == Vec2(m.size - 1, 0)
  {
    GetTileWrapsAcrossRows(m);
  }

  /** GetNextTile with the bounds-checked lookup: `None` exactly when the
      target leaves the board, otherwise the tile at the target. */
  function NextTileChecked(m: Map, current: Tile, d6: int, side: LookingSide): (r: Option<Tile>)
    requires Valid(m)
    ensures !(1 <= d6 <= 6) ==> r == Some(current)
    ensures 1 <= d6 <= 6 ==>
      (r.Some? <==> OnBoard(Destination(current.position, side, EffectiveSteps(d6)), m.size))
    ensures 1 <= d6 <= 6 && r.Some? ==>
      && r.value.position == Destination(current.position, side, EffectiveSteps(d6))
      && Manhattan(current.position, r.value.position) == EffectiveSteps(d6)
  {
    if 1 <= d6 <= 6 then
      DestinationDistance(current.position, side, EffectiveSteps(d6));
      TileAt(m, Destination(current.position, side, EffectiveSteps(d6)))
    else
      Some(current)
  }

  /** The source's resolver and the checked one agree whenever the checked one
      finds a tile, and whenever the roll is outside 1..6. */
  lemma NextTileAgreesOnBoard(m: Map, current: Tile, d6: int, side: LookingSide)
    requires Valid(m)
    requires NextTileChecked(m, current, d6, side).Some?
    ensures NextTile(m, current, d6, side) == NextTileChecked(m, current, d6, side)
  {
  }
}

=== FILE: world.dfy ===
/** World-space geometry of the board (Map.GetTilePos, Map.GetTileByPosition).
    Unity's single-precision floats are modelled as exact reals; the board lies
    in the y = 0 plane and grid row y runs along world z. */
module World {
  import opened Wrappers
  import opened Grid

  /** Vector3: a world-space point or offset. */
  datatype Vec3 = Vec3(x: real, y: real, z: real)

  function Plus(a: Vec3, b: Vec3): Vec3 {
    Vec3(a.x + b.x, a.y + b.y, a.z + b.z)
  }

  function Minus(a: Vec3, b: Vec3): Vec3 {
    Vec3(a.x - b.x, a.y - b.y, a.z - b.z)
  }

  /** The C# `(int)` conversion of a float: truncation toward zero. */
  function Truncate(v: real): (n: int)
    ensures 0.0 <= v ==> 0 <= n && n as real <= v < n as real + 1.0
    ensures v < 0.0 ==> n <= 0 && n as real - 1.0 < v <= n as real
  {
    if v >= 0.0 then v.Floor else -((-v).Floor)
  }

  /** Map.GetTilePos: the world-space centre of the tile at grid coordinate p,
      `Tile.size * (p + 0.5)` on x and z. */
  function TileCenter(p: Vec2, tileSize: nat): Vec3 {
    Vec3(tileSize as real * (p.x as real + 0.5), 0.0, tileSize as real * (p.y as real + 0.5))
  }

  /** The clamp bound `Tile.size * (size - 0.5)`: the centre line of the last
      row (or column). */
  function Upper(size: nat, tileSize: nat): real {
    tileSize as real * (size as real - 0.5)
  }

  /** The clamp applied to the z coordinate: above the bound becomes the bound,
      then below zero becomes zero. */
  function ClampAxis(v: real, size: nat, tileSize: nat): (c: real)
    requires 0 < size && 0 < tileSize
    ensures 0.0 <= c <= Upper(size, tileSize)
    ensures 0.0 <= v <= Upper(size, tileSize) ==> c == v
  {
    UpperInLastBand(size, tileSize);
    var v1 := if v > Upper(size, tileSize) then Upper(size, tileSize) else v;
    if v1 < 0.0 then 0.0 else v1
  }

  /** The clamp the source applies to the x coordinate: its test compares with
      `Tile.size * size` but assigns `Tile.size * (size - 0.5)`, so values in
      (Upper, Tile.size*size] pass through unchanged. */
  function ClampXAsWritten(v: real, size: nat, tileSize: nat): (c: real)
    requires 0 < size && 0 < tileSize
    ensures 0.0 <= c <= (tileSize * size) as real
    ensures 0.0 <= v <= (tileSize * size) as real ==> c == v
  {
    var v1 := if v > (tileSize * size) as real then Upper(size, tileSize) else v;
    if v1 < 0.0 then 0.0 else v1
  }

  /** Column (or row) of a clamped coordinate: `(int)v / Tile.size`. The
      operand is never negative here, so Euclidean `/` matches C#. */
  function Cell(c: real, tileSize: nat): (n: int)
    requires 0 < tileSize
    ensures 0.0 <= c ==> 0 <= n
  {
    Truncate(c) / tileSize
  }

  /** A coordinate within the k-th tile-wide band falls in cell k. */
  lemma CellInBand(c: real, tileSize: nat, k: nat)
    requires 0 < tileSize
    requires (tileSize * k) as real <= c < (tileSize * k + tileSize) as real
    ensures Cell(c, tileSize) == k
  {
    var f := Truncate(c);
    assert 0 <= tileSize * k;
    assert tileSize * k <= f < tileSize * k + tileSize;
    DivInBand(f, tileSize, k);
  }

  /** The upper clamp bound lies inside the last band. */
  lemma UpperInLastBand(size: nat, tileSize: nat)
    requires 0 < size && 0 < tileSize
    ensures (tileSize * (size - 1)) as real <= Upper(size, tileSize)
    ensures Upper(size, tileSize) < (tileSize * (size - 1) + tileSize) as real
  {
    var t, s := tileSize as real, size as real;
    assert Upper(size, tileSize) == t * s - t / 2.0;
    assert (tileSize * (size - 1)) as real == t * s - t;
    assert (tileSize * (size - 1) + tileSize) as real == t * s;
  }

  /** Every coordinate the z clamp can produce lands in a cell in [0, size). */
  lemma CellOfClamped(c: real, size: nat, tileSize: nat)
    requires 0 < size && 0 < tileSize
    requires 0.0 <= c <= Upper(size, tileSize)
    ensures 0 <= Cell(c, tileSize) < size
  {
    UpperInLastBand(size, tileSize);
    var f := Truncate(c);
    assert f < tileSize * (size - 1) + tileSize;
    assert tileSize * (size - 1) + tileSize == tileSize * size;
    DivBelow(f, tileSize, size);
  }

  /** Clamping is monotone and never widens a gap. */
  lemma ClampSpread(a: real, b: real, size: nat, tileSize: nat)
    requires 0 < size && 0 < tileSize
    requires a <= b
    ensures 0.0 <= ClampAxis(b, size, tileSize) - ClampAxis(a, size, tileSize) <= b - a
  {
    UpperInLastBand(size, tileSize);
  }

  /** Coordinates at most one tile apart fall in the same or the next cell. */
  lemma CellStep(lo: real, hi: real, tileSize: nat)
    requires 0 < tileSize
    requires 0.0 <= lo <= hi <= lo + tileSize as real
    ensures Cell(lo, tileSize) <= Cell(hi, tileSize) <= Cell(lo, tileSize) + 1
  {
    var fl, fh := Truncate(lo), Truncate(hi);
    assert fl <= fh;
    assert fh <= fl + tileSize;
    DivStep(fl, fh, tileSize);
  }

  /** The grid cell under a world point once both coordinates are clamped onto
      the board: column from x, row from z. */
  function CellUnder(size: nat, tileSize: nat, w: Vec3): (p: Vec2)
    requires 0 < size && 0 < tileSize
    ensures OnBoard(p, size)
  {
    var cx, cz := ClampAxis(w.x, size, tileSize), ClampAxis(w.z, size, tileSize);
    CellOfClamped(cx, size, tileSize);
    CellOfClamped(cz, size, tileSize);
    Vec2(Cell(cx, tileSize), Cell(cz, tileSize))
  }

  /** Map.GetTileByPosition with the x clamp bound made equal to the z bound:
      the flat index `z*size + x` of the tile under a world point. Every point,
      inside the board or not, is clamped onto a tile. */
  function TileIndexAt(size: nat, tileSize: nat, w: Vec3): (i: nat)
    requires 0 < size && 0 < tileSize
    ensures i < size * size
    ensures CoordOf(i, size) == CellUnder(size, tileSize, w)
  {
    var p := CellUnder(size, tileSize, w);
    CoordRoundTrip(p, size);
    IndexOf(p, size)
  }

  /** Map.GetTileByPosition as written. `None` is the array fault
      (IndexOutOfRangeException) the source raises when the index `z*size + x`
      runs past the tile array. */
  function TileIndexAtAsWritten(size: nat, tileSize: nat, w: Vec3): (r: Option<nat>)
    requires 0 < size && 0 < tileSize
    ensures r.Some? ==> r.value < size * size
  {
    var cx, cz := ClampXAsWritten(w.x, size, tileSize), ClampAxis(w.z, size, tileSize);
    CellOfClamped(cz, size, tileSize);
    var x, z := Cell(cx, tileSize), Cell(cz, tileSize);
    var i := IndexOf(Vec2(x, z), size);
    MulLeftMono(size, 0, z);
    assert 0 <= i;
    if i < size * size then Some(i) else None
  }

  /** Looking up the centre of an on-board tile gives back that tile's index,
      both in the source's lookup and in the corrected one. */
  lemma CenterRoundTrip(p: Vec2, size: nat, tileSize: nat)
    requires 0 < size && 0 < tileSize
    requires OnBoard(p, size)
    ensures TileIndexAt(size, tileSize, TileCenter(p, tileSize)) == IndexOf(p, size)
    ensures TileIndexAtAsWritten(size, tileSize, TileCenter(p, tileSize)) == Some(IndexOf(p, size))
  {
    var w := TileCenter(p, tileSize);
    CenterCell(p.x, size, tileSize, w.x);
    CenterCell(p.y, size, tileSize, w.z);
    LookupOfCells(size, tileSize, w, p);
  }

  /** A point whose clamped coordinates fall in the cells of an on-board p is
      looked up as p by both lookups. */
  lemma LookupOfCells(size: nat, tileSize: nat, w: Vec3, p: Vec2)
    requires 0 < size && 0 < tileSize
    requires OnBoard(p, size)
    requires Cell(ClampAxis(w.x, size, tileSize), tileSize) == p.x
    requires Cell(ClampXAsWritten(w.x, size, tileSize), tileSize) == p.x
    requires Cell(ClampAxis(w.z, size, tileSize), tileSize) == p.y
    ensures TileIndexAt(size, tileSize, w) == IndexOf(p, size)
    ensures TileIndexAtAsWritten(size, tileSize, w) == Some(IndexOf(p, size))
  {
    var i := TileIndexAt(size, tileSize, w);
    IndexRoundTrip(i, size);
    CoordRoundTrip(p, size);
  }

  /** The centre of band k is left alone by both clamps and falls in cell k. */
  lemma CenterCell(k: nat, size: nat, tileSize: nat, c: real)
    requires 0 < tileSize && k < size
    requires c == tileSize as real * (k as real + 0.5)
    ensures ClampAxis(c, size, tileSize) == c
    ensures ClampXAsWritten(c, size, tileSize) == c
    ensures Cell(c, tileSize) == k
  {
    CenterInBand(k, tileSize);
    CellInBand(c, tileSize, k);
    CenterBelowUpper(k, size, tileSize);
  }

  /** The centre of band k lies strictly inside band k. */
  lemma CenterInBand(k: nat, tileSize: nat)
    requires 0 < tileSize
    ensures var c := tileSize as real * (k as real + 0.5);
      (tileSize * k) as real <= c < (tileSize * k + tileSize) as real
  {
    var t := tileSize as real;
    RealMul(tileSize, k);
    assert t * (k as real + 0.5) == t * k as real + t / 2.0;
  }

  /** The centre of an on-board band lies below both clamp bounds. */
  lemma CenterBelowUpper(k: nat, size: nat, tileSize: nat)
    requires 0 < tileSize && k < size
    ensures var c := tileSize as real * (k as real + 0.5);
      c <= Upper(size, tileSize) && c <= (tileSize * size) as real
  {
    var t := tileSize as real;
    var c := t * (k as real + 0.5);
    MulRealLeftMono(t, k as real + 0.5, size as real - 0.5);
    RealMul(tileSize, size);
    assert Upper(size, tileSize) <= t * size as real;
  }

  lemma RealMul(a: int, b: int)
    ensures (a * b) as real == a as real * b as real
  {
  }

  lemma MulRealLeftMono(k: real, a: real, b: real)
    requires 0.0 <= k && a <= b
    ensures k * a <= k * b
  {
    assert k * b == k * a + k * (b - a);
  }

  /** The source's lookup agrees with the corrected one at every point except
      those whose x lies exactly on the far edge `Tile.size * size`. */
  lemma AsWrittenAgreesOffEdge(size: nat, tileSize: nat, w: Vec3)
    requires 0 < size && 0 < tileSize
    requires w.x != (tileSize * size) as real
    ensures TileIndexAtAsWritten(size, tileSize, w) == Some(TileIndexAt(size, tileSize, w))
  {
    var u := Upper(size, tileSize);
    UpperInLastBand(size, tileSize);
    var cz := ClampAxis(w.z, size, tileSize);
    CellOfClamped(cz, size, tileSize);
    var x', x := Cell(ClampXAsWritten(w.x, size, tileSize), tileSize), Cell(ClampAxis(w.x, size, tileSize), tileSize);
    if u < w.x < (tileSize * size) as real {
      assert (tileSize * (size - 1) + tileSize) == tileSize * size;
      CellInBand(w.x, tileSize, size - 1);
      CellInBand(u, tileSize, size - 1);
    }
    assert x' == x;
    var z := Cell(cz, tileSize);
    CellOfClamped(ClampAxis(w.x, size, tileSize), size, tileSize);
    CoordRoundTrip(Vec2(x, z), size);
    assert z * size + x == IndexOf(Vec2(x, z), size);
  }

  /** On the far x edge the source's lookup lands in column `size`, one past
      the last column: the index wraps into the next row, or past the array on
      the last row. */
  lemma AsWrittenFarEdgeColumn(size: nat, tileSize: nat, w: Vec3)
    requires 0 < size && 0 < tileSize
    requires w.x == (tileSize * size) as real
    ensures Cell(ClampXAsWritten(w.x, size, tileSize), tileSize) == size
    ensures Cell(ClampAxis(w.x, size, tileSize), tileSize) == size - 1
  {
    UpperInLastBand(size, tileSize);
    CellInBand(w.x, tileSize, size);
    CellInBand(Upper(size, tileSize), tileSize, size - 1);
  }

  /** Concrete instance on the 7 x 7 board with unit tiles: the point (7, 0, 0)
      on the right edge of the first row is looked up as tile (0, 1), the first
      tile of the second row, instead of tile (6, 0); on the last row the same
      edge runs past the array. */
  lemma AsWrittenFarEdgeExample()
    ensures TileIndexAtAsWritten(7, 1, Vec3(7.0, 0.0, 0.0)) == Some(7)
    ensures CoordOf(7, 7) == Vec2(0, 1)
    ensures TileIndexAt(7, 1, Vec3(7.0, 0.0, 0.0)) == 6
    ensures TileIndexAtAsWritten(7, 1, Vec3(7.0, 0.0, 6.5)) == None
  {
    AsWrittenFarEdgeColumn(7, 1, Vec3(7.0, 0.0, 0.0));
    AsWrittenFarEdgeColumn(7, 1, Vec3(7.0, 0.0, 6.5));
    CellInBand(0.0, 1, 0);
    CellInBand(6.5, 1, 6);
    DivModOf(1, 0, 7);
    CoordRoundTrip(Vec2(6, 0), 7);
  }
}

=== FILE: wrappers.dfy ===
/** Optional values. In the members that follow the source as written
    (Board.GetTile, Movement.NextTile, World.TileIndexAtAsWritten,
    Board.SelectedTilesAsWritten) `None` is the IndexOutOfRangeException of a
    read outside the tile array; in the bounds-checked members (Board.TileAt,
    Movement.NextTileChecked) it is the rejection of an off-board coordinate. */
module Wrappers {

  datatype Option<+T> = None | Some(value: T)
}
